=== FILE: README.md ===
# FitKit iOS bridge — a Dafny model

FitKit lets a Flutter app read health and fitness data (steps, distance, energy)
from Apple HealthKit. Its iOS side, `SwiftFitKitPlugin`, receives method calls
over a Flutter channel, negotiates read authorization, queries HealthKit and
returns either raw samples or per-day totals. This project models the decision
rules of that bridge with HealthKit replaced by an abstract store:

- `HealthStore` — the abstract store (`HealthData`: per-type authorization
  statuses, the request-status answer, the outcome of an authorization
  request, the stored samples or no result set at all), samples with integer
  millisecond `start`/`end`, a value, a source and optional metadata, and the
  values that cross the channel (`Reply`, `Payload`, `Wire`). Every operation
  returns an `Effect`: the reply, the store afterwards, and the ordered list of
  store interactions (`StoreCall`) it performed, so that "no query runs" and
  "authorization comes first" can be stated.
- `Sequences` — stable insertion sort by an integer key, filtering, and the
  "sorted prefix holds the smallest keys" lemma behind the limit policy.
- `Authorization` — `hasPermissions` (request-status strategy and legacy
  status strategy), `isAuthorized`, `requestPermissions`, `revokePermissions`
  and the shared `requestAuthorization` step.
- `SampleQuery` — `read` and `readSample`: the query predicate, the store's
  end-date ordering and limit, the re-sort by start date when a limit is
  given, `readValue`, `user_entered`, and the record dictionary.
- `DailyStatistics` — `readDay` and `readDailySample`: metric name to
  type/unit, the ten-day window ending at the time the statistics query is built, exclusion of
  user-entered samples, day buckets, and emission only of buckets that have a
  sum.
- `Plugin` — `handle`: availability check, lazy store creation, routing by
  method name.

Behaviour worth knowing, proved here about the code as written:

- Without a limit, samples come back ascending by END date; with a limit they
  come back ascending by START date. So a limit changes the order, not only the
  selection (`SampleQuery.UnlimitedOrdersByEnd`, `SampleQuery.LimitedOrdersByStart`).
- A limit of 0 is passed to HealthKit as its "no limit" value (0), yet the query
  is still sorted descending and re-sorted by start date.
- `readValue` answers -1 for a sample that is neither a quantity nor a
  category; nothing fails.
- When the statistics query hands back no result set, `readDay` never answers
  (`NoReply`).
- `readDay` requests authorization for the request's sample type but
  aggregates the type selected by the metric name, which falls back to step
  count for any unrecognised name.

## Model

| member | source | states |
|---|---|---|
| Plugin.Handle | ios/Classes/SwiftFitKitPlugin.swift:17-58 | Without health data every call answers "Not supported" with no store interaction and no state change; otherwise the store handle is created exactly when it did not exist, as the first interaction, and the interactions after it, the reply and the resulting store are those of the operation the name reaches (Dispatched); unknown names are not implemented; argument errors answer "Error …" without touching the store; hasPermissions, isAuthorized and revokePermissions leave the store unchanged; only readDay can leave a call unanswered |
| Plugin.Route | ios/Classes/SwiftFitKitPlugin.swift:27-57 | Routing never creates the store; each known name reaches its own operation (Dispatched): hasPermissions asks by request status or by authorization status as the platform allows and answers unnecessary-to-request, the "hasPermissions" error, or all-answered accordingly, requestPermissions asks for exactly the parsed types, answers with the outcome and leaves the store as the consent left it, revokePermissions answers nil untouched, isAuthorized asks about step count, read and readDay authorize the sample type first: when that is refused the reply is its error, the store is unchanged and no query runs; otherwise a sample query (read) or a statistics query (readDay) runs and the reply is that operation's records or buckets; unknown names give not-implemented; parse failures give the argument error and leave the store unchanged |
| Plugin.UnavailableIgnoresCall | ios/Classes/SwiftFitKitPlugin.swift:18-21 | Without health data the answer does not depend on the method name or its arguments, so nothing is parsed before the check |
| Plugin.StoreCreatedAtMostOnce | ios/Classes/SwiftFitKitPlugin.swift:15-25 | Over any sequence of calls the store is created at most once: exactly once if it did not exist and some call found health data available, and it is reused afterwards |
| HealthStore.UserEntered | ios/Classes/SwiftFitKitPlugin.swift:249 | A sample is user-entered exactly when its metadata holds the Bool true under HKWasUserEntered; ReadSample reports this as user_entered and Qualifying drops such samples from the daily sums at line 192 (ManualEntryIgnored) |
| Authorization.AllResponded | ios/Classes/SwiftFitKitPlugin.swift:89-94 | The legacy test is true iff no requested type has status notDetermined |
| Authorization.HasPermissions | ios/Classes/SwiftFitKitPlugin.swift:73-96 | Request-status strategy: a platform error gives the "hasPermissions" error, else true iff the status is unnecessary; legacy strategy: true iff every requested type is not notDetermined; neither changes the store |
| Authorization.LegacyEmptyRequestPermitted | ios/Classes/SwiftFitKitPlugin.swift:89-95 | The legacy strategy answers true for an empty request |
| Authorization.IsAuthorized | ios/Classes/SwiftFitKitPlugin.swift:99-113 | True iff the step-count status is sharingAuthorized or sharingDenied, false for notDetermined; creates the store only if it is missing; store unchanged |
| Authorization.IsAuthorizedIsLegacyStepCount | ios/Classes/SwiftFitKitPlugin.swift:89-113 | isAuthorized gives the same answer as the legacy hasPermissions for step count alone |
| Authorization.AfterConsent | ios/Classes/SwiftFitKitPlugin.swift:69-71 | After the consent screen a requested notDetermined type reads sharingDenied whatever the user chose; every other status is kept |
| Authorization.RequestAuthorization | ios/Classes/SwiftFitKitPlugin.swift:156-165 | Completes iff the platform reports success; otherwise the error is "Error " plus the platform's description or "empty", and the store is unchanged; answered statuses never change and unrequested types are untouched |
| Authorization.RequestPermissions | ios/Classes/SwiftFitKitPlugin.swift:116-125 | Answers true iff the authorization request succeeds and false otherwise, never an error; exactly one authorization request is made |
| Authorization.RefusedRequestKeepsStatuses | ios/Classes/SwiftFitKitPlugin.swift:116-125 | A failed request answers false and leaves every status as it was |
| Authorization.RequestThenHasPermissionsLegacy | ios/Classes/SwiftFitKitPlugin.swift:61-125 | Legacy strategy: a type never asked about reports false, and true after a successful request, whatever the user chose |
| Authorization.RevokePermissions | ios/Classes/SwiftFitKitPlugin.swift:127-132 | Answers nil, touches no status and makes no store interaction |
| Sequences.SortBy | ios/Classes/SwiftFitKitPlugin.swift:239 | The sorted result is a permutation of the input and is non-decreasing by the key |
| Sequences.SortedPrefixBound | ios/Classes/SwiftFitKitPlugin.swift:227-229 | In a sorted sequence every element of the first N has a key no larger than any element left over |
| SampleQuery.Matching | ios/Classes/SwiftFitKitPlugin.swift:226 | The query keeps each stored sample of the requested type starting in [dateFrom, dateTo), with its multiplicity, and nothing else |
| SampleQuery.RunSampleQuery | ios/Classes/SwiftFitKitPlugin.swift:226-229 | The sample query: the matches of the predicate, sorted by end date ascending without a limit and descending with one, cut to the limit; what it hands back is stated by StoreAnswerUnlimited, StoreAnswerZeroLimit and StoreAnswerLatest |
| SampleQuery.StoreAnswerUnlimited | ios/Classes/SwiftFitKitPlugin.swift:227-229 | Without a limit the store hands back every match, each as often as stored, ascending by end date |
| SampleQuery.StoreAnswerZeroLimit | ios/Classes/SwiftFitKitPlugin.swift:229 | A limit of 0 reaches the store as its no-limit value and every match comes back |
| SampleQuery.KeepLatest | ios/Classes/SwiftFitKitPlugin.swift:227-229 | Cutting a latest-end-first sequence to N keeps samples that end no earlier than any sample it drops |
| SampleQuery.StoreAnswerLatest | ios/Classes/SwiftFitKitPlugin.swift:227-229 | With a positive limit N the store hands back min(N, matches) of the matches, and no match left out ends later than one kept |
| SampleQuery.SelectSamples | ios/Classes/SwiftFitKitPlugin.swift:232-235 | A missing result set, and only that, gives the "Results are null" error |
| SampleQuery.SelectUnlimited | ios/Classes/SwiftFitKitPlugin.swift:226-241 | Without a limit readSample reports a permutation of the matching samples (no deduplication), ascending by end date |
| SampleQuery.SelectLimited | ios/Classes/SwiftFitKitPlugin.swift:226-241 | With a positive limit N readSample reports min(N, matches) matching samples, the latest by end date, re-sorted ascending by start date |
| SampleQuery.SelectZeroLimit | ios/Classes/SwiftFitKitPlugin.swift:226-241 | With a limit of 0 readSample reports every match, re-sorted ascending by start date |
| SampleQuery.ReadSample | ios/Classes/SwiftFitKitPlugin.swift:232-264 | No result set gives "Results are null"; otherwise one record per selected sample in order, carrying its start, end, source, user-entered flag (metadata holds the Bool true) and value (quantity, category code, or -1 for other kinds); an empty selection gives an empty list |
| SampleQuery.ReadValue | ios/Classes/SwiftFitKitPlugin.swift:256-264 | readValue: the quantity of a quantity sample, the code of a category sample, -1 otherwise; stated by ReadValueSentinel and carried into every record by ReadSample |
| SampleQuery.ReadValueSentinel | ios/Classes/SwiftFitKitPlugin.swift:256-264 | For every sample, a quantity sample reports its quantity (of any sign), a category sample its code, anything else -1; when readings are non-negative a -1 identifies exactly the samples that are neither |
| SampleQuery.ReadSampleOrder | ios/Classes/SwiftFitKitPlugin.swift:227-243 | Records are ascending by date_to without a limit and by date_from with one |
| SampleQuery.EncodeRecord | ios/Classes/SwiftFitKitPlugin.swift:243-251 | A record becomes a dictionary with exactly the keys value, date_from, date_to, source, user_entered |
| SampleQuery.EncodeRecords | ios/Classes/SwiftFitKitPlugin.swift:243-251 | The list holds one dictionary per record, in order, each decoding back to its record |
| SampleQuery.RecordRoundTrip | ios/Classes/SwiftFitKitPlugin.swift:243-251 | Decoding a record's dictionary gives the record back: value, both timestamps, source and flag |
| SampleQuery.Read | ios/Classes/SwiftFitKitPlugin.swift:134-143 | Authorization for exactly the requested type comes first; on failure its error is the reply and no query runs; on success exactly one sample query runs with the request's range, limit and order and its records are the reply |
| SampleQuery.NonMatchingSampleIrrelevant | ios/Classes/SwiftFitKitPlugin.swift:226 | A sample of another type or starting outside the range, stored at any position, never changes what readSample reports |
| SampleQuery.UnlimitedOrdersByEnd | ios/Classes/SwiftFitKitPlugin.swift:227 | Example: without a limit a long sample that starts first but ends last comes back last |
| SampleQuery.LimitedOrdersByStart | ios/Classes/SwiftFitKitPlugin.swift:237-240 | Example: with a limit keeping both samples the same two come back in the opposite order |
| DailyStatistics.DailyMetric | ios/Classes/SwiftFitKitPlugin.swift:168-180 | "energy" gives active energy, "distance_cycling" cycling distance, "distance" walking/running distance, anything else step count; each with its registry unit (kcal, m, m, count) |
| DailyStatistics.MidnightOf | ios/Classes/SwiftFitKitPlugin.swift:187-189 | The anchor is the start of the day containing the time the query is built (`now`): a whole multiple of one day, in the same day, at most one day before it |
| DailyStatistics.DayOfBounds | ios/Classes/SwiftFitKitPlugin.swift:185-189 | Each timestamp lies in the one-day bucket of its day index |
| DailyStatistics.Qualifying | ios/Classes/SwiftFitKitPlugin.swift:184-193 | The statistics query keeps exactly the samples of the measured type starting in [now - 10 days, now) that are not user-entered and carry a quantity reading (the only kind a quantity type has in HealthKit) |
| DailyStatistics.Buckets | ios/Classes/SwiftFitKitPlugin.swift:207-215 | Buckets lie in the enumerated range, strictly increasing by day, each for a day with at least one sample and holding that day's sum |
| DailyStatistics.BucketsComplete | ios/Classes/SwiftFitKitPlugin.swift:207-215 | Every day of the range on which a sample starts gets a bucket |
| DailyStatistics.BucketsOfEmptyDays | ios/Classes/SwiftFitKitPlugin.swift:208 | Days without samples produce no bucket |
| DailyStatistics.SingleSampleBucket | ios/Classes/SwiftFitKitPlugin.swift:207-215 | A single sample yields exactly one bucket, its day with its amount |
| DailyStatistics.BucketsConserve | ios/Classes/SwiftFitKitPlugin.swift:207-215 | The bucket sums of a range add up to the amount of the samples starting in it |
| DailyStatistics.ReadDailySample | ios/Classes/SwiftFitKitPlugin.swift:167-218 | No result set gives no answer; otherwise at most 11 buckets, days from today - 10 to today, strictly chronological, one for exactly the days with a qualifying sample, each the sum of that day's qualifying samples |
| DailyStatistics.DailyTotalConserved | ios/Classes/SwiftFitKitPlugin.swift:191-217 | The emitted buckets add up to the plain total of the qualifying samples: no sample lost and none counted in two buckets (cross-source de-duplication is left out) |
| DailyStatistics.NonQualifyingSampleIgnored | ios/Classes/SwiftFitKitPlugin.swift:191-194 | Adding, at any position in the store, a sample the compound predicate rejects never changes the buckets |
| DailyStatistics.ManualEntryIgnored | ios/Classes/SwiftFitKitPlugin.swift:192-193 | Adding a user-entered sample at any position in the store never changes the buckets |
| DailyStatistics.OutsideWindowIgnored | ios/Classes/SwiftFitKitPlugin.swift:184-191 | Adding, at any position in the store, a sample starting before now - 10 days or at or after now never changes the buckets |
| DailyStatistics.ManualEntryExcludedFromDay | ios/Classes/SwiftFitKitPlugin.swift:191-215 | A device sample and a user-entered sample on the same day give one bucket holding only the device sample's amount |
| DailyStatistics.EncodeBucket | ios/Classes/SwiftFitKitPlugin.swift:212 | A bucket becomes a dictionary with exactly the keys value and date |
| DailyStatistics.EncodeBuckets | ios/Classes/SwiftFitKitPlugin.swift:206-217 | One dictionary per bucket, in order, each decoding back to its bucket |
| DailyStatistics.ReadDay | ios/Classes/SwiftFitKitPlugin.swift:145-154 | Authorization for exactly the requested type comes first; on failure its error is the reply and no query runs; on success exactly one statistics query runs over [now - 10 days, now] anchored at midnight, and the reply is its buckets or no reply when there is no result set |

## Left out

- Flutter channel registration and `FlutterMethodNotImplemented`/`FlutterError` construction: replies are the `Reply` datatype and an error carries only its code and message, not its `details`.
- `PermissionsRequest` and `ReadRequest` parsing: not part of this model; a `Call` carries the parsed request or the error text the parser would throw.
- HealthKit itself: statuses, the request status, authorization outcomes and stored samples are fields of `HealthData`; query execution is modelled by the predicate and ordering the plugin configures.
- Asynchronous callbacks and threading: each call is one sequential function. `now` stands for the clock reading taken when the statistics query is built, inside the authorization completion, after the consent flow; it is a parameter, not the moment the call arrives.
- Calendars, time zones, daylight saving and `DateFormatter`: days are counted from the epoch in whole 86 400 000 ms days, the window start is exactly ten such days before `now`, and the `yyyy-MM-dd` label is replaced by the day index.
- `HKStatisticsCollectionQuery` internals: a sample counts towards the bucket of the day it starts in; splitting a sample that spans midnight between buckets is not modelled. HealthKit merges overlapping data from several sources (a phone and a watch counting the same steps) before summing; that de-duplication is not modelled, and each day's sum is the plain sum of its qualifying samples.
- Floating point: quantities are integers already expressed in the requested unit (`doubleValue(for:)` is not modelled), and timestamps are integer milliseconds (the `* 1000` truncation is not modelled).
- Negative limits: the limit is a natural number.
- Metadata values other than booleans are one opaque case; Swift's bridging of numbers to `Bool` is not modelled.
- `readSource` and the `#available` checks: the source name is a field of the sample, and the request-status strategy is chosen by a `Platform` flag.
- HealthKit's recomputation of the request status after a consent flow: `requestStatus` is whatever the store reports.
- The order HealthKit gives to samples with equal end dates: the model keeps store order (a stable sort); no contract depends on it.
- `print` logging.

=== FILE: authorization.dfy ===
/**
 * The plugin's authorization operations: `hasPermissions` (two strategies),
 * `isAuthorized`, `requestPermissions`, `revokePermissions`, and the shared
 * `requestAuthorization` step that precedes every read.
 */
module Authorization {
  import opened Wrappers
  import opened HealthStore

  /** How an authorization request ended. */
  datatype Completion = Completed | Refused(error: FlutterError)

  /** The legacy test: every listed type has left `NotDetermined`. */
  function AllResponded(h: HealthData, types: seq<SampleType>): (r: bool)
    ensures r <==> forall i | 0 <= i < |types| :: StatusOf(h, types[i]) != NotDetermined
  {
    if |types| == 0 then true
    else StatusOf(h, types[0]) != NotDetermined && AllResponded(h, types[1..])
  }

  /**
   * `hasPermissions`. With the request-status query (`modern`), an error from
   * the platform is reported and otherwise the answer is true exactly when
   * requesting again would be unnecessary; without it, the answer is true
   * exactly when no requested type is still `NotDetermined`. Neither path
   * changes the store.
   */
  function HasPermissions(h: HealthData, modern: bool, types: seq<SampleType>): (r: Effect)
    ensures r.health == h
    ensures modern ==> r.calls == [RequestStatusQuery(types)]
    ensures modern && h.requestStatus.Failure? ==> r.reply == Failed(FlutterError(TAG, "hasPermissions"))
    ensures modern && h.requestStatus.Success? ==>
      r.reply == Ok(PBool(h.requestStatus.value == Unnecessary))
    ensures !modern ==> r.calls == [StatusQuery(types)]
    ensures !modern ==> r.reply.Ok? && r.reply.payload.PBool?
    ensures !modern ==>
      (r.reply.payload.b <==> forall t | t in types :: StatusOf(h, t) != NotDetermined)
  {
    if modern then
      match h.requestStatus
      case Failure(_) => Effect(Failed(FlutterError(TAG, "hasPermissions")), h, [RequestStatusQuery(types)])
      case Success(status) =>
        if status != Unnecessary then Effect(Ok(PBool(false)), h, [RequestStatusQuery(types)])
        else Effect(Ok(PBool(true)), h, [RequestStatusQuery(types)])
    else
      Effect(Ok(PBool(AllResponded(h, types))), h, [StatusQuery(types)])
  }

  /**
   * `isAuthorized`: probes the step-count status only, creating the store
   * handle first if there is none. True exactly when the user has answered
   * the consent screen, whichever way.
   */
  function IsAuthorized(h: HealthData, storeCreated: bool): (r: Effect)
    ensures r.health == h
    ensures r.reply.Ok? && r.reply.payload.PBool?
    ensures r.reply.payload.b <==> StatusOf(h, StepCount) != NotDetermined
    ensures r.calls == (if storeCreated then [] else [CreateStore]) + [StatusQuery([StepCount])]
  {
    var created := if storeCreated then [] else [CreateStore];
    var answered :=
      match StatusOf(h, StepCount)
      case SharingAuthorized => true
      case SharingDenied => true
      case _ => false;
    Effect(Ok(PBool(answered)), h, created + [StatusQuery([StepCount])])
  }

  /**
   * The store after the user has seen the consent screen for `types`: a type
   * that was `NotDetermined` reads `SharingDenied` whatever the user chose
   * (HealthKit does not reveal read grants); every other status is kept.
   */
  function AfterConsent(h: HealthData, types: seq<SampleType>): (h': HealthData)
    ensures forall t ::
              StatusOf(h', t) ==
              (if t in types && StatusOf(h, t) == NotDetermined then SharingDenied else StatusOf(h, t))
    ensures h' == h.(statuses := h'.statuses)
  {
    var keys := h.statuses.Keys + (set t | t in types);
    h.(statuses := map t | t in keys ::
         if t in types && StatusOf(h, t) == NotDetermined then SharingDenied else StatusOf(h, t))
  }

  /**
   * `requestAuthorization`: completes exactly when the platform reports
   * success; otherwise refuses with the platform's description, or "empty"
   * when it gives none, and leaves the store as it was.
   */
  function RequestAuthorization(h: HealthData, types: seq<SampleType>): (r: (Completion, HealthData))
    ensures r.0.Completed? <==> h.authorizationSucceeds
    ensures r.0.Refused? ==>
      r.0.error == FlutterError(TAG, "Error " + h.authorizationError.GetOr("empty")) && r.1 == h
    ensures r.0.Completed? ==> forall t | t in types :: StatusOf(r.1, t) != NotDetermined
    ensures forall t | t !in types :: StatusOf(r.1, t) == StatusOf(h, t)
    ensures forall t | StatusOf(h, t) != NotDetermined :: StatusOf(r.1, t) == StatusOf(h, t)
    ensures r.1.samples == h.samples && r.1.authorizationSucceeds == h.authorizationSucceeds
  {
    if !h.authorizationSucceeds then
      (Refused(FlutterError(TAG, "Error " + h.authorizationError.GetOr("empty"))), h)
    else
      (Completed, AfterConsent(h, types))
  }

  /** `requestPermissions`: true exactly when the request completed, false otherwise; never an error. */
  function RequestPermissions(h: HealthData, types: seq<SampleType>): (r: Effect)
    ensures r.reply == Ok(PBool(h.authorizationSucceeds))
    ensures r.calls == [AuthorizationRequest(types)]
    ensures !h.authorizationSucceeds ==> r.health == h
  {
    var (outcome, h') := RequestAuthorization(h, types);
    match outcome
    case Refused(_) => Effect(Ok(PBool(false)), h', [AuthorizationRequest(types)])
    case Completed => Effect(Ok(PBool(true)), h', [AuthorizationRequest(types)])
  }

  /** `revokePermissions`: HealthKit cannot revoke, so this answers nil and touches nothing. */
  function RevokePermissions(h: HealthData): (r: Effect)
    ensures r == Effect(Ok(PNil), h, [])
  {
    Effect(Ok(PNil), h, [])
  }

  /** `isAuthorized` answers as the legacy `hasPermissions` would for step count alone. */
  lemma IsAuthorizedIsLegacyStepCount(h: HealthData, storeCreated: bool)
    ensures IsAuthorized(h, storeCreated).reply == HasPermissions(h, false, [StepCount]).reply
  {
  }

  /** With the legacy strategy an empty request is vacuously permitted. */
  lemma LegacyEmptyRequestPermitted(h: HealthData)
    ensures HasPermissions(h, false, []).reply == Ok(PBool(true))
  {
  }

  /**
   * Under the legacy strategy, requesting types that were never asked about
   * reports false beforehand and, once a request completes, true afterwards,
   * whatever the user chose.
   */
  lemma RequestThenHasPermissionsLegacy(h: HealthData, types: seq<SampleType>)
    requires h.authorizationSucceeds
    requires |types| > 0 && StatusOf(h, types[0]) == NotDetermined
    ensures HasPermissions(h, false, types).reply == Ok(PBool(false))
    ensures HasPermissions(RequestPermissions(h, types).health, false, types).reply == Ok(PBool(true))
  {
  }

  /** A refused request leaves every status as it was. */
  lemma RefusedRequestKeepsStatuses(h: HealthData, types: seq<SampleType>)
    requires !h.authorizationSucceeds
    ensures RequestPermissions(h, types).reply == Ok(PBool(false))
    ensures forall t :: StatusOf(RequestPermissions(h, types).health, t) == StatusOf(h, t)
  {
  }
}

=== FILE: daily_statistics.dfy ===
/**
 * `readDay` and `readDailySample`: authorization followed by one statistics
 * query that sums device-recorded samples into day buckets over a fixed
 * ten-day window ending when the statistics query is built (`now`).
 */
module DailyStatistics {
  import opened Wrappers
  import opened HealthStore
  import opened Sequences
  import opened Authorization
  import opened SampleQuery

  /** The window reaches back this many days from `now`, when the query is built. */
  const WINDOW_DAYS: int := 10

  /** One statistics bucket: a day index (days since the epoch) and the summed quantity. */
  datatype Bucket = Bucket(day: int, value: int)

  /** The unit each type the plugin names is measured in. */
  function RegistryUnit(t: SampleType): Option<Unit> {
    match t
    case StepCount => Some(Count)
    case ActiveEnergyBurned => Some(Kilocalorie)
    case DistanceCycling => Some(Meter)
    case DistanceWalkingRunning => Some(Meter)
    case OtherType(_) => None
  }

  /**
   * The quantity type and unit `readDailySample` measures for a metric name:
   * "energy", "distance_cycling" and "distance" select their own type, and
   * every other name falls back to step count.
   */
  function DailyMetric(typeName: string): (r: (SampleType, Unit))
    ensures RegistryUnit(r.0) == Some(r.1)
    ensures typeName == "energy" <==> r.0 == ActiveEnergyBurned
    ensures typeName == "distance_cycling" <==> r.0 == DistanceCycling
    ensures typeName == "distance" <==> r.0 == DistanceWalkingRunning
    ensures typeName !in {"energy", "distance_cycling", "distance"} <==> r.0 == StepCount
  {
    if typeName == "energy" then (ActiveEnergyBurned, Kilocalorie)
    else if typeName == "distance_cycling" then (DistanceCycling, Meter)
    else if typeName == "distance" then (DistanceWalkingRunning, Meter)
    else (StepCount, Count)
  }

  /** The day a timestamp falls in, counted from the epoch (floor division). */
  function DayOf(t: int): int {
    t / DAY_MS
  }

  /** The start of the day containing `t`: the anchor of the statistics query. */
  function MidnightOf(t: int): (m: int)
    ensures m <= t < m + DAY_MS
    ensures DayOf(m) == DayOf(t)
    ensures m % DAY_MS == 0
  {
    DayOf(t) * DAY_MS
  }

  /** A timestamp belongs to exactly the day whose bucket spans it. */
  lemma DayOfBounds(t: int)
    ensures DayOf(t) * DAY_MS <= t < (DayOf(t) + 1) * DAY_MS
  {
  }

  lemma DayOfMonotone(a: int, b: int)
    requires a <= b
    ensures DayOf(a) <= DayOf(b)
  {
    DayOfBounds(a);
    DayOfBounds(b);
  }

  function WindowStart(now: int): int {
    now - WINDOW_DAYS * DAY_MS
  }

  /**
   * The compound predicate of the statistics query: the measured type,
   * starting within [now - 10 days, now), and not marked as user-entered.
   * Only quantity samples carry an amount to sum.
   */
  predicate Qualifies(s: Sample, measured: SampleType, now: int) {
    && s.sampleType == measured
    && WindowStart(now) <= s.start < now
    && !UserEntered(s)
    && s.value.Quantity?
  }

  function Qualifying(stored: seq<Sample>, measured: SampleType, now: int): (r: seq<Sample>)
    ensures forall x :: multiset(r)[x] == (if Qualifies(x, measured, now) then multiset(stored)[x] else 0)
  {
    Filter(stored, s => Qualifies(s, measured, now))
  }

  function Amount(s: Sample): int {
    if s.value.Quantity? then s.value.amount else 0
  }

  /** Some sample of `q` starts on day `d`: the bucket has a sum. */
  predicate HasSampleOn(q: seq<Sample>, d: int) {
    exists i | 0 <= i < |q| :: DayOf(q[i].start) == d
  }

  /** The sum of the amounts of the samples of `q` starting on day `d`. */
  function SumOn(q: seq<Sample>, d: int): int {
    if |q| == 0 then 0
    else (if DayOf(q[0].start) == d then Amount(q[0]) else 0) + SumOn(q[1..], d)
  }

  /** Some bucket of `r` is for day `d`. */
  predicate HasBucket(r: seq<Bucket>, d: int) {
    exists i | 0 <= i < |r| :: r[i].day == d
  }

  /**
   * The statistics enumeration from day `lo` to day `hi`: one bucket per day
   * that has a sum, in chronological order, holding that day's sum.
   */
  function Buckets(q: seq<Sample>, lo: int, hi: int): (r: seq<Bucket>)
    ensures forall i | 0 <= i < |r| :: lo <= r[i].day <= hi
    ensures forall i, j | 0 <= i < j < |r| :: r[i].day < r[j].day
    ensures forall i | 0 <= i < |r| :: HasSampleOn(q, r[i].day) && r[i].value == SumOn(q, r[i].day)
    ensures |r| <= (if hi < lo then 0 else hi - lo + 1)
    decreases hi + 1 - lo
  {
    if hi < lo then []
    else
      var rest := Buckets(q, lo + 1, hi);
      if HasSampleOn(q, lo) then [Bucket(lo, SumOn(q, lo))] + rest else rest
  }

  /** Every day of the enumerated range on which a sample starts gets a bucket. */
  lemma {:induction false} BucketsComplete(q: seq<Sample>, lo: int, hi: int, d: int)
    requires lo <= d <= hi && HasSampleOn(q, d)
    ensures HasBucket(Buckets(q, lo, hi), d)
    decreases hi - lo
  {
    var r := Buckets(q, lo, hi);
    if d == lo {
      assert r[0].day == d;
    } else {
      BucketsComplete(q, lo + 1, hi, d);
      var rest := Buckets(q, lo + 1, hi);
      var k :| 0 <= k < |rest| && rest[k].day == d;
      if HasSampleOn(q, lo) {
        assert r[k + 1].day == d;
      } else {
        assert r[k].day == d;
      }
    }
  }

  /**
   * `readDailySample`. No result set means no answer at all. Otherwise the
   * buckets cover the days from the window start to `now`, in
   * chronological order, one for each day on which a qualifying sample
   * starts, holding the sum of the qualifying samples of that day.
   */
  function ReadDailySample(h: HealthData, req: ReadRequest, now: int): (r: Option<seq<Bucket>>)
    ensures r.None? <==> h.samples.None?
    ensures r.Some? ==>
      var q := Qualifying(h.samples.value, DailyMetric(req.typeName).0, now);
      && |r.value| <= WINDOW_DAYS + 1
      && (forall i | 0 <= i < |r.value| :: DayOf(now) - WINDOW_DAYS <= r.value[i].day <= DayOf(now))
      && (forall i, j | 0 <= i < j < |r.value| :: r.value[i].day < r.value[j].day)
      && (forall i | 0 <= i < |r.value| ::
            HasSampleOn(q, r.value[i].day) && r.value[i].value == SumOn(q, r.value[i].day))
      && (forall s | s in q :: HasBucket(r.value, DayOf(s.start)))
  {
    match h.samples
    case None => None
    case Some(stored) =>
      var q := Qualifying(stored, DailyMetric(req.typeName).0, now);
      var from := DayOf(WindowStart(now));
      assert from == DayOf(now) - WINDOW_DAYS;
      var r := Buckets(q, from, DayOf(now));
      assert forall s | s in q :: HasBucket(r, DayOf(s.start)) by {
        forall s | s in q
          ensures HasBucket(r, DayOf(s.start))
        {
          var i :| 0 <= i < |q| && q[i] == s;
          assert s in multiset(q);
          DayOfMonotone(WindowStart(now), s.start);
          DayOfMonotone(s.start, now);
          BucketsComplete(q, from, DayOf(now), DayOf(s.start));
        }
      }
      Some(r)
  }

  /** The dictionary `readDailySample` emits for a bucket; the day index stands for the date label. */
  function EncodeBucket(b: Bucket): (m: map<string, Wire>)
    ensures m.Keys == {"value", "date"}
  {
    map["value" := WNumber(b.value), "date" := WNumber(b.day)]
  }

  function DecodeBucket(m: map<string, Wire>): Option<Bucket> {
    if "value" in m && m["value"].WNumber? && "date" in m && m["date"].WNumber?
    then Some(Bucket(m["date"].n, m["value"].n))
    else None
  }

  function EncodeBuckets(buckets: seq<Bucket>): (r: seq<map<string, Wire>>)
    ensures |r| == |buckets|
    ensures forall i | 0 <= i < |r| :: DecodeBucket(r[i]) == Some(buckets[i])
  {
    seq(|buckets|, i requires 0 <= i < |buckets| => EncodeBucket(buckets[i]))
  }

  /**
   * `readDay`: requests authorization for exactly the requested type; if that
   * fails the reply is its error and no query runs, otherwise exactly one
   * statistics query runs, over [now - 10 days, now] anchored at the
   * midnight before `now`, for the type the metric name selects. Without a
   * result set there is no reply.
   */
  function ReadDay(h: HealthData, req: ReadRequest, now: int): (r: Effect)
    ensures |r.calls| >= 1 && r.calls[0] == AuthorizationRequest([req.sampleType])
    ensures !h.authorizationSucceeds ==>
      && r.calls == [AuthorizationRequest([req.sampleType])]
      && r.reply == Failed(RequestAuthorization(h, [req.sampleType]).0.error)
      && r.health == h
    ensures h.authorizationSucceeds ==>
      && r.calls == [AuthorizationRequest([req.sampleType]),
                     StatisticsQuery(DailyMetric(req.typeName).0, WindowStart(now), now, MidnightOf(now))]
      && r.health == RequestAuthorization(h, [req.sampleType]).1
      && (h.samples.None? <==> r.reply == NoReply)
      && (h.samples.Some? ==>
            var buckets := ReadDailySample(r.health, req, now).value;
            && r.reply.Ok? && r.reply.payload.PList?
            && |r.reply.payload.items| == |buckets|
            && forall i | 0 <= i < |buckets| :: DecodeBucket(r.reply.payload.items[i]) == Some(buckets[i]))
  {
    var (outcome, h') := RequestAuthorization(h, [req.sampleType]);
    match outcome
    case Refused(e) => Effect(Failed(e), h', [AuthorizationRequest([req.sampleType])])
    case Completed =>
      var calls := [AuthorizationRequest([req.sampleType]),
                    StatisticsQuery(DailyMetric(req.typeName).0, WindowStart(now), now, MidnightOf(now))];
      match ReadDailySample(h', req, now)
      case None => Effect(NoReply, h', calls)
      case Some(buckets) => Effect(Ok(PList(EncodeBuckets(buckets))), h', calls)
  }

  // Properties relating the buckets to the qualifying samples.

  function SumBuckets(buckets: seq<Bucket>): int {
    if |buckets| == 0 then 0 else buckets[0].value + SumBuckets(buckets[1..])
  }

  function TotalAmount(q: seq<Sample>): int {
    if |q| == 0 then 0 else Amount(q[0]) + TotalAmount(q[1..])
  }

  /** The total amount of the samples of `q` starting on a day in [lo, hi]. */
  function AmountIn(q: seq<Sample>, lo: int, hi: int): int {
    if |q| == 0 then 0
    else (if lo <= DayOf(q[0].start) <= hi then Amount(q[0]) else 0) + AmountIn(q[1..], lo, hi)
  }

  lemma {:induction false} SumOnAbsent(q: seq<Sample>, d: int)
    requires !HasSampleOn(q, d)
    ensures SumOn(q, d) == 0
  {
    if |q| > 0 {
      assert !HasSampleOn(q[1..], d) by {
        forall i | 0 <= i < |q[1..]|
          ensures DayOf(q[1..][i].start) != d
        {
          assert q[1..][i] == q[i + 1];
        }
      }
      SumOnAbsent(q[1..], d);
    }
  }

  lemma {:induction false} AmountInEmptyRange(q: seq<Sample>, lo: int, hi: int)
    requires hi < lo
    ensures AmountIn(q, lo, hi) == 0
  {
    if |q| > 0 {
      AmountInEmptyRange(q[1..], lo, hi);
    }
  }

  lemma {:induction false} AmountInSplit(q: seq<Sample>, lo: int, hi: int)
    requires lo <= hi
    ensures AmountIn(q, lo, hi) == SumOn(q, lo) + AmountIn(q, lo + 1, hi)
  {
    if |q| > 0 {
      AmountInSplit(q[1..], lo, hi);
    }
  }

  lemma {:induction false} AmountInCoversAll(q: seq<Sample>, lo: int, hi: int)
    requires forall i | 0 <= i < |q| :: lo <= DayOf(q[i].start) <= hi
    ensures AmountIn(q, lo, hi) == TotalAmount(q)
  {
    if |q| > 0 {
      assert forall i | 0 <= i < |q[1..]| :: lo <= DayOf(q[1..][i].start) <= hi by {
        forall i | 0 <= i < |q[1..]|
          ensures lo <= DayOf(q[1..][i].start) <= hi
        {
          assert q[1..][i] == q[i + 1];
        }
      }
      AmountInCoversAll(q[1..], lo, hi);
    }
  }

  /** The buckets of a range together hold exactly the amount of the samples starting in it. */
  lemma {:induction false} BucketsConserve(q: seq<Sample>, lo: int, hi: int)
    ensures SumBuckets(Buckets(q, lo, hi)) == AmountIn(q, lo, hi)
    decreases hi + 1 - lo
  {
    if hi < lo {
      AmountInEmptyRange(q, lo, hi);
    } else {
      var rest := Buckets(q, lo + 1, hi);
      BucketsConserve(q, lo + 1, hi);
      AmountInSplit(q, lo, hi);
      if HasSampleOn(q, lo) {
        var r := [Bucket(lo, SumOn(q, lo))] + rest;
        assert r[1..] == rest;
      } else {
        SumOnAbsent(q, lo);
      }
    }
  }

  /**
   * Nothing qualifying is lost or counted twice: the bucket sums add up to
   * the total amount of the qualifying samples.
   */
  lemma DailyTotalConserved(h: HealthData, req: ReadRequest, now: int)
    requires h.samples.Some?
    ensures SumBuckets(ReadDailySample(h, req, now).value) ==
            TotalAmount(Qualifying(h.samples.value, DailyMetric(req.typeName).0, now))
  {
    var q := Qualifying(h.samples.value, DailyMetric(req.typeName).0, now);
    var lo := DayOf(WindowStart(now));
    assert forall i | 0 <= i < |q| :: lo <= DayOf(q[i].start) <= DayOf(now) by {
      forall i | 0 <= i < |q|
        ensures lo <= DayOf(q[i].start) <= DayOf(now)
      {
        assert q[i] in multiset(q);
        DayOfMonotone(WindowStart(now), q[i].start);
        DayOfMonotone(q[i].start, now);
      }
    }
    BucketsConserve(q, lo, DayOf(now));
    AmountInCoversAll(q, lo, DayOf(now));
  }

  /** The store with one more sample, placed at position `k`. */
  function WithSampleAt(h: HealthData, k: nat, extra: Sample): HealthData
    requires h.samples.Some? && k <= |h.samples.value|
  {
    h.(samples := Some(h.samples.value[..k] + [extra] + h.samples.value[k..]))
  }

  /** A sample the statistics predicate rejects, stored at any position, has no effect on the buckets. */
  lemma NonQualifyingSampleIgnored(h: HealthData, req: ReadRequest, now: int, k: nat, extra: Sample)
    requires h.samples.Some? && k <= |h.samples.value|
    requires !Qualifies(extra, DailyMetric(req.typeName).0, now)
    ensures ReadDailySample(WithSampleAt(h, k, extra), req, now) == ReadDailySample(h, req, now)
  {
    var measured := DailyMetric(req.typeName).0;
    var stored := h.samples.value;
    FilterIgnoresRejected(stored, k, extra, s => Qualifies(s, measured, now));
    assert Qualifying(stored[..k] + [extra] + stored[k..], measured, now) == Qualifying(stored, measured, now);
  }

  /** A user-entered sample, wherever it is stored, never changes the buckets. */
  lemma ManualEntryIgnored(h: HealthData, req: ReadRequest, now: int, k: nat, extra: Sample)
    requires h.samples.Some? && k <= |h.samples.value|
    requires UserEntered(extra)
    ensures ReadDailySample(WithSampleAt(h, k, extra), req, now) == ReadDailySample(h, req, now)
  {
    NonQualifyingSampleIgnored(h, req, now, k, extra);
  }

  /** A sample starting before the window or at or after `now`, wherever it is stored, never changes the buckets. */
  lemma OutsideWindowIgnored(h: HealthData, req: ReadRequest, now: int, k: nat, extra: Sample)
    requires h.samples.Some? && k <= |h.samples.value|
    requires extra.start < now - WINDOW_DAYS * DAY_MS || now <= extra.start
    ensures ReadDailySample(WithSampleAt(h, k, extra), req, now) == ReadDailySample(h, req, now)
  {
    NonQualifyingSampleIgnored(h, req, now, k, extra);
  }

  /** A range of days on which no sample starts yields no buckets. */
  lemma {:induction false} BucketsOfEmptyDays(q: seq<Sample>, lo: int, hi: int)
    requires forall d | lo <= d <= hi :: !HasSampleOn(q, d)
    ensures Buckets(q, lo, hi) == []
    decreases hi + 1 - lo
  {
    if lo <= hi {
      BucketsOfEmptyDays(q, lo + 1, hi);
    }
  }

  /** A range holding a single sample yields exactly one bucket, for its day, holding its amount. */
  lemma {:induction false} SingleSampleBucket(s: Sample, lo: int, hi: int)
    requires lo <= DayOf(s.start) <= hi
    ensures Buckets([s], lo, hi) == [Bucket(DayOf(s.start), Amount(s))]
    decreases hi + 1 - lo
  {
    assert [s][0] == s && [s][1..] == [];
    if lo == DayOf(s.start) {
      BucketsOfEmptyDays([s], lo + 1, hi);
      assert SumOn([s], lo) == Amount(s) + SumOn([], lo);
    } else {
      assert !HasSampleOn([s], lo);
      SingleSampleBucket(s, lo + 1, hi);
    }
  }

  /**
   * A device-recorded sample and a user-entered one on the same day yield a
   * single bucket for that day holding only the device-recorded amount.
   */
  lemma ManualEntryExcludedFromDay(h: HealthData, req: ReadRequest, now: int, recorded: Sample, typed: Sample)
    requires h.samples == Some([recorded, typed])
    requires Qualifies(recorded, DailyMetric(req.typeName).0, now)
    requires UserEntered(typed)
    ensures ReadDailySample(h, req, now) == Some([Bucket(DayOf(recorded.start), recorded.value.amount)])
  {
    var measured := DailyMetric(req.typeName).0;
    var h1 := h.(samples := Some([recorded]));
    assert [recorded][..1] + [typed] + [recorded][1..] == [recorded, typed];
    ManualEntryIgnored(h1, req, now, 1, typed);
    assert Qualifying([recorded], measured, now) == [recorded] by {
      assert [recorded][1..] == [];
    }
    DayOfMonotone(WindowStart(now), recorded.start);
    DayOfMonotone(recorded.start, now);
    SingleSampleBucket(recorded, DayOf(WindowStart(now)), DayOf(now));
  }
}

=== FILE: health_store.dfy ===
/**
 * The abstract health data store that stands in for HealthKit, and the values
 * that cross the plugin's method channel.
 */
module HealthStore {
  import opened Wrappers

  /** Log tag used as the code of every error the plugin reports. */
  const TAG: string := "FitKit"

  /** Metadata key under which HealthKit marks a sample as typed in by the user. */
  const WAS_USER_ENTERED: string := "HKWasUserEntered"

  /** Milliseconds in one day; day buckets are this long. */
  const DAY_MS: int := 86_400_000

  /** The sample types the plugin names itself; every other type is opaque. */
  datatype SampleType =
    | StepCount
    | ActiveEnergyBurned
    | DistanceCycling
    | DistanceWalkingRunning
    | OtherType(identifier: string)

  datatype Unit = Count | Kilocalorie | Meter | OtherUnit(name: string)

  /** HealthKit's per-type authorization status. */
  datatype AuthStatus = NotDetermined | SharingDenied | SharingAuthorized

  /** HealthKit's answer to "would requesting authorization show the consent screen?". */
  datatype RequestStatus = StatusUnknown | ShouldRequest | Unnecessary

  /** The concrete representation of a sample: a quantity, a category code, or anything else. */
  datatype SampleValue = Quantity(amount: int) | Category(code: int) | Unsupported

  datatype MetaValue = MetaBool(flag: bool) | MetaOther(text: string)

  /** One stored observation; `start` and `end` are epoch milliseconds. */
  datatype Sample = Sample(
    sampleType: SampleType,
    start: int,
    end: int,
    value: SampleValue,
    source: string,
    metadata: Option<map<string, MetaValue>>)

  /**
   * Everything the plugin can observe of HealthKit: the authorization status of
   * each type (a type without an entry is `NotDetermined`), the answer to the
   * request-status query (or the error it reports), the outcome of an
   * authorization request, and the stored samples (`None` when the store hands
   * back no result set at all).
   */
  datatype HealthData = HealthData(
    statuses: map<SampleType, AuthStatus>,
    requestStatus: Result<RequestStatus, string>,
    authorizationSucceeds: bool,
    authorizationError: Option<string>,
    samples: Option<seq<Sample>>)

  /** An interaction with the store, in the order the plugin performs it. */
  datatype StoreCall =
    | CreateStore
    | StatusQuery(types: seq<SampleType>)
    | RequestStatusQuery(types: seq<SampleType>)
    | AuthorizationRequest(types: seq<SampleType>)
    | SamplesQuery(queried: SampleType, from: int, to: int, limit: nat, ascendingByEnd: bool)
    | StatisticsQuery(measured: SampleType, windowStart: int, windowEnd: int, anchor: int)

  /** A `FlutterError`; its `details` payload is not modelled. */
  datatype FlutterError = FlutterError(code: string, message: string)

  /** A value of a wire-level dictionary. */
  datatype Wire = WNumber(n: int) | WBool(b: bool) | WText(s: string)

  /** What the plugin passes to the Flutter result callback. */
  datatype Payload = PBool(b: bool) | PNil | PList(items: seq<map<string, Wire>>)

  /**
   * The outcome of one call: a value, an error, the not-implemented marker, or
   * no answer at all (the result callback is never invoked).
   */
  datatype Reply = Ok(payload: Payload) | Failed(error: FlutterError) | NotImplemented | NoReply

  /**
   * What one plugin operation produces: the reply, the store afterwards, and
   * the store interactions it performed, in order.
   */
  datatype Effect = Effect(reply: Reply, health: HealthData, calls: seq<StoreCall>)

  function StatusOf(h: HealthData, t: SampleType): AuthStatus {
    if t in h.statuses then h.statuses[t] else NotDetermined
  }

  /** True iff the sample's metadata holds the boolean `true` under the user-entered key. */
  predicate UserEntered(s: Sample) {
    && s.metadata.Some?
    && WAS_USER_ENTERED in s.metadata.value
    && s.metadata.value[WAS_USER_ENTERED] == MetaBool(true)
  }

  function StartKey(s: Sample): int { s.start }

  function EndKey(s: Sample): int { s.end }

  /** Sorting by this key puts the latest end date first. */
  function LatestEndFirstKey(s: Sample): int { -s.end }
}

=== FILE: plugin.dfy ===
/**
 * The method-channel entry point `handle`: the availability check, lazy
 * creation of the single store handle, and routing by method name.
 */
module Plugin {
  import opened Wrappers
  import opened HealthStore
  import opened Authorization
  import opened SampleQuery
  import opened DailyStatistics

  /**
   * What the device offers for one call: whether health data is available at
   * all, whether the request-status query exists (newer systems), and the
   * current time in epoch milliseconds.
   */
  datatype Platform = Platform(healthDataAvailable: bool, requestStatusAvailable: bool, now: int)

  /** The plugin's own state: whether its store handle has been created. */
  datatype PluginState = PluginState(storeCreated: bool)

  /**
   * A method call with its arguments already parsed: the permissions request
   * and the read request as the parsers would build them, or the error they
   * would throw.
   */
  datatype Call = Call(
    name: string,
    permissions: Result<seq<SampleType>, string>,
    read: Result<ReadRequest, string>)

  datatype Response = Response(reply: Reply, plugin: PluginState, health: HealthData, calls: seq<StoreCall>)

  const METHODS: set<string> :=
    {"hasPermissions", "requestPermissions", "revokePermissions", "read", "isAuthorized", "readDay"}

  /** Methods that parse arguments before touching the store. */
  const PARSING_METHODS: set<string> := {"hasPermissions", "requestPermissions", "read", "readDay"}

  const NOT_SUPPORTED: FlutterError := FlutterError(TAG, "Not supported")

  /** The error reported when argument parsing throws. */
  function ArgumentError(e: string): FlutterError {
    FlutterError(TAG, "Error " + e)
  }

  /**
   * What each known method does once its arguments have parsed, told by the
   * store interactions it makes and the reply it gives: the permission check
   * asks the store by the strategy the platform offers, the permission request
   * asks for exactly the parsed types and answers with its success, revoking
   * does nothing, the authorization check asks about step count, and both
   * reads authorize the request's sample type before a sample query (`read`)
   * or a statistics query (`readDay`).
   */
  ghost predicate Dispatched(p: Platform, h: HealthData, c: Call, e: Effect) {
    && (c.name == "hasPermissions" && c.permissions.Success? ==>
          var types := c.permissions.value;
          && e.health == h
          && e.calls == (if p.requestStatusAvailable then [RequestStatusQuery(types)] else [StatusQuery(types)])
          && (p.requestStatusAvailable && h.requestStatus.Failure? ==>
                e.reply == Failed(FlutterError(TAG, "hasPermissions")))
          && (p.requestStatusAvailable && h.requestStatus.Success? ==>
                e.reply == Ok(PBool(h.requestStatus.value == Unnecessary)))
          && (!p.requestStatusAvailable ==>
                e.reply.Ok? && e.reply.payload.PBool? &&
                (e.reply.payload.b <==> forall t | t in types :: StatusOf(h, t) != NotDetermined)))
    && (c.name == "requestPermissions" && c.permissions.Success? ==>
          && e.calls == [AuthorizationRequest(c.permissions.value)]
          && e.reply == Ok(PBool(h.authorizationSucceeds))
          && e.health == RequestAuthorization(h, c.permissions.value).1)
    && (c.name == "revokePermissions" ==> e == Effect(Ok(PNil), h, []))
    && (c.name == "isAuthorized" ==>
          && e.health == h
          && e.calls == [StatusQuery([StepCount])]
          && e.reply == Ok(PBool(StatusOf(h, StepCount) != NotDetermined)))
    && (c.name == "read" && c.read.Success? ==>
          var req := c.read.value;
          && |e.calls| >= 1 && e.calls[0] == AuthorizationRequest([req.sampleType])
          && (!h.authorizationSucceeds ==>
                e == Effect(Failed(RequestAuthorization(h, [req.sampleType]).0.error), h,
                            [AuthorizationRequest([req.sampleType])]))
          && (h.authorizationSucceeds ==>
                && e.calls == [AuthorizationRequest([req.sampleType]),
                               SamplesQuery(req.sampleType, req.dateFrom, req.dateTo, StoreLimit(req), req.limit.None?)]
                && e.reply == Read(h, req).reply
                && e.health == RequestAuthorization(h, [req.sampleType]).1))
    && (c.name == "readDay" && c.read.Success? ==>
          var req := c.read.value;
          && |e.calls| >= 1 && e.calls[0] == AuthorizationRequest([req.sampleType])
          && (!h.authorizationSucceeds ==>
                e == Effect(Failed(RequestAuthorization(h, [req.sampleType]).0.error), h,
                            [AuthorizationRequest([req.sampleType])]))
          && (h.authorizationSucceeds ==>
                && e.calls == [AuthorizationRequest([req.sampleType]),
                               StatisticsQuery(DailyMetric(req.typeName).0, WindowStart(p.now), p.now, MidnightOf(p.now))]
                && e.reply == ReadDay(h, req, p.now).reply
                && e.health == RequestAuthorization(h, [req.sampleType]).1))
  }

  /** Routing once the store exists: each known method to its operation, anything else not implemented. */
  function Route(p: Platform, h: HealthData, c: Call): (r: Effect)
    ensures CreateStore !in r.calls
    ensures Dispatched(p, h, c, r)
    ensures c.name !in METHODS ==> r == Effect(NotImplemented, h, [])
    ensures c.name in {"hasPermissions", "requestPermissions"} && c.permissions.Failure? ==>
      r == Effect(Failed(ArgumentError(c.permissions.error)), h, [])
    ensures c.name in {"read", "readDay"} && c.read.Failure? ==>
      r == Effect(Failed(ArgumentError(c.read.error)), h, [])
    ensures c.name in {"hasPermissions", "isAuthorized", "revokePermissions"} ==> r.health == h
    ensures r.reply == NoReply ==> c.name == "readDay"
  {
    if c.name == "hasPermissions" then
      match c.permissions
      case Failure(e) => Effect(Failed(ArgumentError(e)), h, [])
      case Success(types) => HasPermissions(h, p.requestStatusAvailable, types)
    else if c.name == "requestPermissions" then
      match c.permissions
      case Failure(e) => Effect(Failed(ArgumentError(e)), h, [])
      case Success(types) => RequestPermissions(h, types)
    else if c.name == "revokePermissions" then
      RevokePermissions(h)
    else if c.name == "read" then
      match c.read
      case Failure(e) => Effect(Failed(ArgumentError(e)), h, [])
      case Success(req) => Read(h, req)
    else if c.name == "isAuthorized" then
      IsAuthorized(h, true)
    else if c.name == "readDay" then
      match c.read
      case Failure(e) => Effect(Failed(ArgumentError(e)), h, [])
      case Success(req) => ReadDay(h, req, p.now)
    else
      Effect(NotImplemented, h, [])
  }

  /**
   * `handle`. Without health data every call is "Not supported", before the
   * store is created or any argument is parsed. Otherwise the store handle is
   * created if it does not exist yet, exactly once, as the first interaction,
   * and the call is routed; an unknown method is not implemented.
   */
  function Handle(p: Platform, st: PluginState, h: HealthData, c: Call): (r: Response)
    ensures !p.healthDataAvailable ==> r == Response(Failed(NOT_SUPPORTED), st, h, [])
    ensures r.plugin.storeCreated <==> st.storeCreated || p.healthDataAvailable
    ensures multiset(r.calls)[CreateStore] == (if p.healthDataAvailable && !st.storeCreated then 1 else 0)
    ensures p.healthDataAvailable && !st.storeCreated ==> r.calls[0] == CreateStore
    ensures p.healthDataAvailable && c.name !in METHODS ==> r.reply == NotImplemented && r.health == h
    ensures p.healthDataAvailable && c.name in PARSING_METHODS ==>
      && (c.name in {"hasPermissions", "requestPermissions"} && c.permissions.Failure? ==>
            r.reply == Failed(ArgumentError(c.permissions.error)) && r.health == h)
      && (c.name in {"read", "readDay"} && c.read.Failure? ==>
            r.reply == Failed(ArgumentError(c.read.error)) && r.health == h)
    ensures p.healthDataAvailable ==>
      var skip := if st.storeCreated then 0 else 1;
      |r.calls| >= skip && Dispatched(p, h, c, Effect(r.reply, r.health, r.calls[skip..]))
    ensures c.name in {"hasPermissions", "isAuthorized", "revokePermissions"} ==> r.health == h
    ensures r.reply == NoReply ==> c.name == "readDay"
  {
    if !p.healthDataAvailable then
      Response(Failed(NOT_SUPPORTED), st, h, [])
    else
      var created := if st.storeCreated then [] else [CreateStore];
      var e := Route(p, h, c);
      assert multiset(e.calls)[CreateStore] == 0;
      Response(e.reply, PluginState(true), e.health, created + e.calls)
  }

  /** Without health data the answer does not depend on the call at all. */
  lemma UnavailableIgnoresCall(p: Platform, st: PluginState, h: HealthData, c1: Call, c2: Call)
    requires !p.healthDataAvailable
    ensures Handle(p, st, h, c1) == Handle(p, st, h, c2)
  {
  }

  /** Runs a sequence of calls, each on the platform it arrives with; collects every store interaction. */
  function RunSession(st: PluginState, h: HealthData, steps: seq<(Platform, Call)>): (PluginState, HealthData, seq<StoreCall>)
    decreases |steps|
  {
    if |steps| == 0 then (st, h, [])
    else
      var r := Handle(steps[0].0, st, h, steps[0].1);
      var rest := RunSession(r.plugin, r.health, steps[1..]);
      (rest.0, rest.1, r.calls + rest.2)
  }

  predicate AnyAvailable(steps: seq<(Platform, Call)>) {
    exists i | 0 <= i < |steps| :: steps[i].0.healthDataAvailable
  }

  /**
   * Over any run of calls the store handle is created at most once: exactly
   * once when it did not exist and some call found health data available,
   * never otherwise; afterwards it is reused.
   */
  lemma {:induction false} StoreCreatedAtMostOnce(st: PluginState, h: HealthData, steps: seq<(Platform, Call)>)
    ensures multiset(RunSession(st, h, steps).2)[CreateStore] ==
            (if !st.storeCreated && AnyAvailable(steps) then 1 else 0)
    ensures RunSession(st, h, steps).0.storeCreated <==> st.storeCreated || AnyAvailable(steps)
    decreases |steps|
  {
    if |steps| > 0 {
      var r := Handle(steps[0].0, st, h, steps[0].1);
      StoreCreatedAtMostOnce(r.plugin, r.health, steps[1..]);
      assert AnyAvailable(steps) <==> steps[0].0.healthDataAvailable || AnyAvailable(steps[1..]) by {
        if AnyAvailable(steps[1..]) {
          var i :| 0 <= i < |steps[1..]| && steps[1..][i].0.healthDataAvailable;
          assert steps[i + 1] == steps[1..][i];
        }
        if AnyAvailable(steps) && !steps[0].0.healthDataAvailable {
          var i :| 0 <= i < |steps| && steps[i].0.healthDataAvailable;
          assert steps[1..][i - 1] == steps[i];
        }
      }
    }
  }
}

=== FILE: sample_query.dfy ===
/**
 * `read` and `readSample`: authorization followed by one sample query, the
 * limit and ordering policy, and the mapping of samples to wire records.
 */
module SampleQuery {
  import opened Wrappers
  import opened HealthStore
  import opened Sequences
  import opened Authorization

  /** The fields of a parsed `ReadRequest` the plugin uses; parsing is not modelled. */
  datatype ReadRequest = ReadRequest(
    typeName: string,
    sampleType: SampleType,
    unit: Unit,
    dateFrom: int,
    dateTo: int,
    limit: Option<nat>)

  /** HealthKit's `HKObjectQueryNoLimit`. */
  const NO_LIMIT: nat := 0

  /** The dictionary the plugin sends for one sample. */
  datatype SampleRecord = SampleRecord(
    value: int,
    dateFrom: int,
    dateTo: int,
    source: string,
    userEntered: bool)

  /** The query predicate: the requested type, starting within [dateFrom, dateTo) (strict start date). */
  predicate Matches(req: ReadRequest, s: Sample) {
    s.sampleType == req.sampleType && req.dateFrom <= s.start < req.dateTo
  }

  /** The stored samples the query predicate admits, in store order. */
  function Matching(samples: seq<Sample>, req: ReadRequest): (r: seq<Sample>)
    ensures forall x :: multiset(r)[x] == (if Matches(req, x) then multiset(samples)[x] else 0)
  {
    Filter(samples, s => Matches(req, s))
  }

  /** The limit handed to the store: the request's, or no limit when it has none. */
  function StoreLimit(req: ReadRequest): nat {
    req.limit.GetOr(NO_LIMIT)
  }

  /**
   * What the store hands back for the sample query: the matching samples
   * sorted by end date (ascending when the request has no limit, descending
   * when it has one), cut to the limit when there is one.
   */
  function RunSampleQuery(samples: seq<Sample>, req: ReadRequest): seq<Sample> {
    var matching := Matching(samples, req);
    var ordered := if req.limit.None? then SortBy(matching, EndKey) else SortBy(matching, LatestEndFirstKey);
    var n := StoreLimit(req);
    if n == NO_LIMIT || |ordered| <= n then ordered else ordered[..n]
  }

  /** Without a limit the store hands back every match, ascending by end date. */
  lemma StoreAnswerUnlimited(samples: seq<Sample>, req: ReadRequest)
    requires req.limit.None?
    ensures multiset(RunSampleQuery(samples, req)) == multiset(Matching(samples, req))
    ensures SortedBy(RunSampleQuery(samples, req), EndKey)
  {
  }

  /** A limit of 0 is HealthKit's "no limit": every match comes back. */
  lemma StoreAnswerZeroLimit(samples: seq<Sample>, req: ReadRequest)
    requires req.limit == Some(NO_LIMIT)
    ensures multiset(RunSampleQuery(samples, req)) == multiset(Matching(samples, req))
  {
  }

  /** Cutting a latest-first sequence to `n` keeps samples ending no earlier than any it drops. */
  lemma KeepLatest(ordered: seq<Sample>, n: nat)
    requires SortedBy(ordered, LatestEndFirstKey)
    requires n <= |ordered|
    ensures multiset(ordered[..n]) <= multiset(ordered)
    ensures forall x, y | x in multiset(ordered[..n]) && y in multiset(ordered) - multiset(ordered[..n]) ::
      y.end <= x.end
  {
    assert ordered == ordered[..n] + ordered[n..];
    SortedPrefixBound(ordered, LatestEndFirstKey, n);
  }

  /**
   * With a positive limit N the store hands back min(N, matches) of the
   * matching samples, and no match it leaves out ends later than one it keeps.
   */
  lemma StoreAnswerLatest(samples: seq<Sample>, req: ReadRequest)
    requires req.limit.Some? && req.limit.value > 0
    ensures var r := RunSampleQuery(samples, req);
      var matching := Matching(samples, req);
      && multiset(r) <= multiset(matching)
      && |r| == (if req.limit.value < |matching| then req.limit.value else |matching|)
      && forall x, y | x in multiset(r) && y in multiset(matching) - multiset(r) :: y.end <= x.end
  {
    var matching := Matching(samples, req);
    var ordered := SortBy(matching, LatestEndFirstKey);
    var n := req.limit.value;
    var k := if |ordered| <= n then |ordered| else n;
    assert RunSampleQuery(samples, req) == ordered[..k] by {
      assert ordered[..|ordered|] == ordered;
    }
    KeepLatest(ordered, k);
  }

  /** The samples `readSample` reports, before they become records; a missing result set is an error. */
  function SelectSamples(h: HealthData, req: ReadRequest): (r: Result<seq<Sample>, FlutterError>)
    ensures r.Failure? <==> h.samples.None?
    ensures r.Failure? ==> r.error == FlutterError(TAG, "Results are null")
  {
    match h.samples
    case None => Failure(FlutterError(TAG, "Results are null"))
    case Some(stored) =>
      var got := RunSampleQuery(stored, req);
      if req.limit.Some? then Success(SortBy(got, StartKey)) else Success(got)
  }

  /** Without a limit: every matching sample, ascending by end date; nothing merged or dropped. */
  lemma SelectUnlimited(h: HealthData, req: ReadRequest)
    requires h.samples.Some? && req.limit.None?
    ensures multiset(SelectSamples(h, req).value) == multiset(Matching(h.samples.value, req))
    ensures SortedBy(SelectSamples(h, req).value, EndKey)
  {
    StoreAnswerUnlimited(h.samples.value, req);
  }

  /**
   * With a positive limit N: min(N, matches) matching samples, none of the
   * matches left out ending later than one kept, ascending by start date.
   */
  lemma SelectLimited(h: HealthData, req: ReadRequest)
    requires h.samples.Some? && req.limit.Some? && req.limit.value > 0
    ensures var r := SelectSamples(h, req).value;
      var matching := Matching(h.samples.value, req);
      && SortedBy(r, StartKey)
      && multiset(r) <= multiset(matching)
      && |r| == (if req.limit.value < |matching| then req.limit.value else |matching|)
      && forall x, y | x in multiset(r) && y in multiset(matching) - multiset(r) :: y.end <= x.end
  {
    var got := RunSampleQuery(h.samples.value, req);
    StoreAnswerLatest(h.samples.value, req);
    assert multiset(SelectSamples(h, req).value) == multiset(got);
  }

  /** A limit of 0: every matching sample, ascending by start date. */
  lemma SelectZeroLimit(h: HealthData, req: ReadRequest)
    requires h.samples.Some? && req.limit == Some(NO_LIMIT)
    ensures multiset(SelectSamples(h, req).value) == multiset(Matching(h.samples.value, req))
    ensures SortedBy(SelectSamples(h, req).value, StartKey)
  {
    StoreAnswerZeroLimit(h.samples.value, req);
  }

  /** `readValue`: the quantity, the category code, or -1 for any other kind of sample. */
  function ReadValue(s: Sample): int {
    match s.value
    case Quantity(amount) => amount
    case Category(code) => code
    case Unsupported => -1
  }

  /** A sample whose reading is a quantity or a category code, not something `readValue` cannot read. */
  predicate Readable(s: Sample) {
    s.value.Quantity? || s.value.Category?
  }

  /** The reading of a readable sample, if any, is not negative. */
  predicate NonNegativeReading(s: Sample) {
    && (s.value.Quantity? ==> s.value.amount >= 0)
    && (s.value.Category? ==> s.value.code >= 0)
  }

  /**
   * `readValue` reports a sample's own reading, whatever its sign, and -1 for
   * an unreadable sample. That -1 is a sentinel only as long as readings are
   * non-negative: then a reported -1 means exactly that the sample was
   * unreadable.
   */
  lemma ReadValueSentinel(s: Sample)
    ensures s.value.Quantity? ==> ReadValue(s) == s.value.amount
    ensures s.value.Category? ==> ReadValue(s) == s.value.code
    ensures s.value.Unsupported? ==> ReadValue(s) == -1
    ensures NonNegativeReading(s) ==> (ReadValue(s) == -1 <==> !Readable(s))
    ensures NonNegativeReading(s) && Readable(s) ==> ReadValue(s) >= 0
  {
  }

  function ToRecord(s: Sample): SampleRecord {
    SampleRecord(ReadValue(s), s.start, s.end, s.source, UserEntered(s))
  }

  /**
   * `readSample`: one record per selected sample, in the same order, with the
   * sample's value, timestamps, source and user-entered flag.
   */
  function ReadSample(h: HealthData, req: ReadRequest): (r: Result<seq<SampleRecord>, FlutterError>)
    ensures r.Failure? <==> h.samples.None?
    ensures r.Failure? ==> r.error == FlutterError(TAG, "Results are null")
    ensures r.Success? ==>
      var selected := SelectSamples(h, req).value;
      && |r.value| == |selected|
      && forall i | 0 <= i < |r.value| ::
           && r.value[i].dateFrom == selected[i].start
           && r.value[i].dateTo == selected[i].end
           && r.value[i].source == selected[i].source
           && (r.value[i].userEntered <==> UserEntered(selected[i]))
           && r.value[i].value == ReadValue(selected[i])
  {
    match SelectSamples(h, req)
    case Failure(e) => Failure(e)
    case Success(selected) =>
      Success(ToRecords(selected))
  }

  function ToRecords(selected: seq<Sample>): (r: seq<SampleRecord>)
    ensures |r| == |selected|
    ensures forall i | 0 <= i < |r| :: r[i] == ToRecord(selected[i])
  {
    seq(|selected|, i requires 0 <= i < |selected| => ToRecord(selected[i]))
  }

  /** Records are ascending by end date without a limit and by start date with one. */
  lemma ReadSampleOrder(h: HealthData, req: ReadRequest)
    requires h.samples.Some?
    ensures var r := ReadSample(h, req).value;
      && (req.limit.None? ==> forall i, j | 0 <= i < j < |r| :: r[i].dateTo <= r[j].dateTo)
      && (req.limit.Some? ==> forall i, j | 0 <= i < j < |r| :: r[i].dateFrom <= r[j].dateFrom)
  {
    if req.limit.None? {
      SelectUnlimited(h, req);
    }
  }

  /** The dictionary `readSample` emits for a record. */
  function EncodeRecord(r: SampleRecord): (m: map<string, Wire>)
    ensures m.Keys == {"value", "date_from", "date_to", "source", "user_entered"}
  {
    map[
      "value" := WNumber(r.value),
      "date_from" := WNumber(r.dateFrom),
      "date_to" := WNumber(r.dateTo),
      "source" := WText(r.source),
      "user_entered" := WBool(r.userEntered)]
  }

  /** Reads a record back from its dictionary; `None` when a key is missing or mistyped. */
  function DecodeRecord(m: map<string, Wire>): Option<SampleRecord> {
    if && "value" in m && m["value"].WNumber?
       && "date_from" in m && m["date_from"].WNumber?
       && "date_to" in m && m["date_to"].WNumber?
       && "source" in m && m["source"].WText?
       && "user_entered" in m && m["user_entered"].WBool?
    then Some(SampleRecord(m["value"].n, m["date_from"].n, m["date_to"].n, m["source"].s, m["user_entered"].b))
    else None
  }

  /** The list `readSample` passes to the result callback, one dictionary per record, in order. */
  function EncodeRecords(records: seq<SampleRecord>): (r: seq<map<string, Wire>>)
    ensures |r| == |records|
    ensures forall i | 0 <= i < |r| :: DecodeRecord(r[i]) == Some(records[i])
  {
    seq(|records|, i requires 0 <= i < |records| => EncodeRecord(records[i]))
  }

  /** Encoding a record loses nothing: value, both timestamps, source and flag come back. */
  lemma RecordRoundTrip(r: SampleRecord)
    ensures DecodeRecord(EncodeRecord(r)) == Some(r)
  {
  }

  /**
   * `read`: requests authorization for exactly the requested type; if that
   * fails the reply is its error and no query runs, otherwise exactly one
   * sample query runs and its records are the reply.
   */
  function Read(h: HealthData, req: ReadRequest): (r: Effect)
    ensures |r.calls| >= 1 && r.calls[0] == AuthorizationRequest([req.sampleType])
    ensures !h.authorizationSucceeds ==>
      && r.calls == [AuthorizationRequest([req.sampleType])]
      && r.reply == Failed(RequestAuthorization(h, [req.sampleType]).0.error)
      && r.health == h
    ensures h.authorizationSucceeds ==>
      && r.calls == [AuthorizationRequest([req.sampleType]),
                     SamplesQuery(req.sampleType, req.dateFrom, req.dateTo, StoreLimit(req), req.limit.None?)]
      && r.health == RequestAuthorization(h, [req.sampleType]).1
      && (ReadSample(r.health, req).Failure? ==> r.reply == Failed(ReadSample(r.health, req).error))
      && (ReadSample(r.health, req).Success? ==>
            var records := ReadSample(r.health, req).value;
            && r.reply.Ok? && r.reply.payload.PList?
            && |r.reply.payload.items| == |records|
            && forall i | 0 <= i < |records| :: DecodeRecord(r.reply.payload.items[i]) == Some(records[i]))
  {
    var (outcome, h') := RequestAuthorization(h, [req.sampleType]);
    match outcome
    case Refused(e) => Effect(Failed(e), h', [AuthorizationRequest([req.sampleType])])
    case Completed =>
      var calls := [AuthorizationRequest([req.sampleType]),
                    SamplesQuery(req.sampleType, req.dateFrom, req.dateTo, StoreLimit(req), req.limit.None?)];
      match ReadSample(h', req)
      case Failure(e) => Effect(Failed(e), h', calls)
      case Success(records) => Effect(Ok(PList(EncodeRecords(records))), h', calls)
  }

  /**
   * A sample the query predicate rejects, stored at any position, has no
   * effect on what `readSample` reports.
   */
  lemma NonMatchingSampleIrrelevant(h: HealthData, req: ReadRequest, k: nat, extra: Sample)
    requires h.samples.Some? && k <= |h.samples.value|
    requires !Matches(req, extra)
    ensures ReadSample(h.(samples := Some(h.samples.value[..k] + [extra] + h.samples.value[k..])), req) ==
            ReadSample(h, req)
  {
    var stored := h.samples.value;
    var more := stored[..k] + [extra] + stored[k..];
    var h' := h.(samples := Some(more));
    FilterIgnoresRejected(stored, k, extra, s => Matches(req, s));
    assert Matching(more, req) == Matching(stored, req);
    assert RunSampleQuery(more, req) == RunSampleQuery(stored, req);
    assert SelectSamples(h', req) == SelectSamples(h, req);
  }

  lemma MatchingPair(a: Sample, b: Sample, req: ReadRequest)
    requires Matches(req, a) && Matches(req, b)
    ensures Matching([a, b], req) == [a, b]
  {
    FilterPair(a, b, s => Matches(req, s));
  }

  /** Without a limit, a long sample that starts first but ends last is reported last. */
  lemma UnlimitedOrdersByEnd()
    ensures
      var long := Sample(StepCount, 0, 10, Quantity(5), "watch", None);
      var short := Sample(StepCount, 5, 6, Quantity(7), "phone", None);
      var h := HealthData(map[], Success(Unnecessary), true, None, Some([long, short]));
      SelectSamples(h, ReadRequest("step", StepCount, Count, 0, 100, None)) == Success([short, long])
  {
    var long := Sample(StepCount, 0, 10, Quantity(5), "watch", None);
    var short := Sample(StepCount, 5, 6, Quantity(7), "phone", None);
    var req := ReadRequest("step", StepCount, Count, 0, 100, None);
    assert Matching([long, short], req) == [long, short] by {
      MatchingPair(long, short, req);
    }
    assert SortBy([long, short], EndKey) == [short, long] by {
      SortPair(long, short, EndKey);
    }
    assert RunSampleQuery([long, short], req) == [short, long];
  }

  /**
   * With a limit that keeps both, the same two samples come back in the
   * opposite order: the limit changes the order, not only the selection.
   */
  lemma LimitedOrdersByStart()
    ensures
      var long := Sample(StepCount, 0, 10, Quantity(5), "watch", None);
      var short := Sample(StepCount, 5, 6, Quantity(7), "phone", None);
      var h := HealthData(map[], Success(Unnecessary), true, None, Some([long, short]));
      SelectSamples(h, ReadRequest("step", StepCount, Count, 0, 100, Some(2))) == Success([long, short])
  {
    var long := Sample(StepCount, 0, 10, Quantity(5), "watch", None);
    var short := Sample(StepCount, 5, 6, Quantity(7), "phone", None);
    var req := ReadRequest("step", StepCount, Count, 0, 100, Some(2));
    assert Matching([long, short], req) == [long, short] by {
      MatchingPair(long, short, req);
    }
    assert SortBy([long, short], LatestEndFirstKey) == [long, short] by {
      SortPair(long, short, LatestEndFirstKey);
    }
    assert RunSampleQuery([long, short], req) == [long, short];
    SortPair(long, short, StartKey);
  }
}

=== FILE: sequences.dfy ===
/** Order and selection over sequences, generic in the element type. */
module Sequences {

  /** `s` is non-decreasing under `key`. */
  predicate SortedBy<T>(s: seq<T>, key: T -> int) {
    forall i, j | 0 <= i < j < |s| :: key(s[i]) <= key(s[j])
  }

  /** Inserts `x` into the sorted `s` before the first element whose key is not smaller. */
  function Insert<T>(x: T, s: seq<T>, key: T -> int): (r: seq<T>)
    requires SortedBy(s, key)
    ensures SortedBy(r, key)
    ensures multiset(r) == multiset(s) + multiset{x}
  {
    if |s| == 0 then [x]
    else if key(x) <= key(s[0]) then [x] + s
    else
      var rest := Insert(x, s[1..], key);
      assert s == [s[0]] + s[1..];
      assert forall k | 0 <= k < |rest| :: key(s[0]) <= key(rest[k]) by {
        forall k | 0 <= k < |rest|
          ensures key(s[0]) <= key(rest[k])
        {
          assert rest[k] in multiset(rest);
          if rest[k] != x {
            assert rest[k] in multiset(s[1..]);
            var j :| 0 <= j < |s[1..]| && s[1..][j] == rest[k];
            assert s[j + 1] == rest[k];
          }
        }
      }
      ConsSorted(s[0], rest, key);
      [s[0]] + rest
  }

  /** Putting an element with a key no greater than any of a sorted sequence's keeps it sorted. */
  lemma ConsSorted<T>(a: T, s: seq<T>, key: T -> int)
    requires SortedBy(s, key)
    requires forall k | 0 <= k < |s| :: key(a) <= key(s[k])
    ensures SortedBy([a] + s, key)
  {
    var t := [a] + s;
    forall i, j | 0 <= i < j < |t|
      ensures key(t[i]) <= key(t[j])
    {
      assert t[j] == s[j - 1];
      if i > 0 {
        assert t[i] == s[i - 1];
      }
    }
  }

  /** Insertion sort: a permutation of `s`, non-decreasing under `key`. */
  function SortBy<T>(s: seq<T>, key: T -> int): (r: seq<T>)
    ensures SortedBy(r, key)
    ensures multiset(r) == multiset(s)
    ensures |r| == |s|
  {
    if |s| == 0 then []
    else
      assert s == [s[0]] + s[1..];
      Insert(s[0], SortBy(s[1..], key), key)
  }

  /** The elements of `s` that satisfy `p`, in their original order. */
  function Filter<T(!new)>(s: seq<T>, p: T -> bool): (r: seq<T>)
    ensures forall x :: multiset(r)[x] == (if p(x) then multiset(s)[x] else 0)
    ensures |r| <= |s|
  {
    if |s| == 0 then []
    else
      assert s == [s[0]] + s[1..];
      (if p(s[0]) then [s[0]] else []) + Filter(s[1..], p)
  }

  lemma {:induction false} FilterAppend<T(!new)>(s: seq<T>, t: seq<T>, p: T -> bool)
    ensures Filter(s + t, p) == Filter(s, p) + Filter(t, p)
    decreases |s|
  {
    if |s| == 0 {
      assert s + t == t;
    } else {
      assert (s + t)[1..] == s[1..] + t;
      FilterAppend(s[1..], t, p);
    }
  }

  /** Inserting an element the filter rejects, anywhere, leaves the filtered sequence unchanged. */
  lemma {:induction false} FilterIgnoresRejected<T(!new)>(s: seq<T>, k: nat, x: T, p: T -> bool)
    requires k <= |s|
    requires !p(x)
    ensures Filter(s[..k] + [x] + s[k..], p) == Filter(s, p)
    decreases k
  {
    var t := s[..k] + [x] + s[k..];
    if k == 0 {
      assert t[0] == x && t[1..] == s;
    } else {
      var u := s[1..][..k - 1] + [x] + s[1..][k - 1..];
      assert t[0] == s[0] && t[1..] == u;
      FilterIgnoresRejected(s[1..], k - 1, x, p);
    }
  }

  /**
   * In a sorted sequence every element of the first `n` has a key no greater
   * than that of any element left over.
   */
  lemma {:induction false} SortedPrefixBound<T>(s: seq<T>, key: T -> int, n: nat)
    requires SortedBy(s, key)
    requires n <= |s|
    ensures forall x, y | x in multiset(s[..n]) && y in multiset(s) - multiset(s[..n]) :: key(x) <= key(y)
  {
    assert s == s[..n] + s[n..];
    assert multiset(s) == multiset(s[..n]) + multiset(s[n..]);
    forall x, y | x in multiset(s[..n]) && y in multiset(s) - multiset(s[..n])
      ensures key(x) <= key(y)
    {
      assert x in s[..n];
      assert y in multiset(s[n..]);
      assert y in s[n..];
      var i :| 0 <= i < n && s[i] == x;
      var j :| 0 <= j < |s| - n && s[n..][j] == y;
      assert s[n + j] == y;
    }
  }

  /** Sorting two elements swaps them exactly when the second has the strictly smaller key. */
  lemma SortPair<T>(a: T, b: T, key: T -> int)
    ensures SortBy([a, b], key) == if key(a) <= key(b) then [a, b] else [b, a]
  {
    assert [a, b][1..] == [b];
    assert SortBy([b], key) == Insert(b, [], key) by {
      assert [b][1..] == [];
    }
  }

  lemma FilterPair<T(!new)>(a: T, b: T, p: T -> bool)
    requires p(a) && p(b)
    ensures Filter([a, b], p) == [a, b]
  {
    assert [a, b][1..] == [b];
    assert [b][1..] == [];
  }
}

=== FILE: wrappers.dfy ===
/** Failure-carrying values used throughout the model. */
module Wrappers {

  /** An optional value: Swift's `T?`. */
  datatype Option<+T> = None | Some(value: T) {

    /** The wrapped value, or `default` when there is none (Swift's `??`). */
    function GetOr(default: T): T {
      match this
      case Some(v) => v
      case None => default
    }
  }

  /** Either a value or an error. */
  datatype Result<+R, +E> = Success(value: R) | Failure(error: E)
}
